=== FILE: README.md ===
# setuptools_scm pre-commit hook, modelled in Dafny

This project models `PreCommitHook` from setuptools_scm. The hook refreshes the
`.egg-info` metadata of an editable install after git operations. It does so
by running a build command, by default `python setup.py egg_info`. Before
running anything, `update_egg_info` works through an ordered list of skip
checks:

1. the `SETUPTOOLS_SCM_SKIP_UPDATE_EGG_INFO` opt-out;
2. whether the work dir has a setup script;
3. whether it has an `.egg-info` entry;
4. whether git is rebasing, unless the post-rewrite flag forces the run.

It reports a `(message, exit code)` pair on every path:

- Every skip returns exit code 0.
- Git counts as rebasing when `rebase-merge` or `rebase-apply` exists under
  the git dir.
- When the command runs, the exit code is the command's own return code. The
  error heading and stderr are added to the message only when that return
  code is non-zero and stderr is non-empty. A non-zero return code with empty
  stderr is still returned as the exit code.

Files and modules:

- `py_text.dfy` (`PyText`): the Python built-ins the hook relies on:
  - `str.rfind` for one character;
  - `filter`, with its multiplicity and order;
  - `sep.join`;
  - the `in` test for substrings;
  - `str.split`, the reader partner of `"\n".join`, with the split/join
    round trips.
- `py_repr.dfy` (`PyRepr`): CPython's `repr` of a `str` and of a list of `str`.
  This is what `{self.build_command}` renders in the `Running command` line.
  The chosen quote, backslashes, `\t`, `\n` and `\r` are escaped, and so are the other
  characters below U+0100 that Python does not print (as `\xhh`). A reader,
  `ReadBody`, reads a quoted literal back up to its first unescaped quote; it
  is proved to return the original text and to stop exactly at the closing
  quote.
- `posix_path.dfy` (`PosixPath`): the POSIX `os.path.join` and the extension half
  of `os.path.splitext`. It also holds a loop that mirrors CPython's
  `genericpath._splitext`, proved equal to the functional definition.
- `pre_commit_hook.dfy` (`PreCommitHook`): the hook itself:
  - `is_git_rebasing`;
  - the ordered checks (`Decide`);
  - the reported outcome (`UpdateEggInfo`);
  - the properties of each branch;
  - `StepOf`, a reader that recovers the decided step from the message.
- `hook_scenarios.dfy` (`HookScenarios`): concrete entry names, plus the calls
  made by `test_pre_commit_hook` in `testing/test_git.py`, in order. Each call
  uses the directory listing the test's work dir has at that point: `.git`
  alone, then the package files, then those plus `test_package.egg-info`, and
  for the last call also the `version.py` the previous run wrote. The
  build command and the git dir are left arbitrary. So the run cases state the
  `Running command` header for any command, not the rendering of the test's
  particular list.

The hook's I/O is turned into parameters. A `Snapshot` holds:

- the value of the environment variable (`Unset` or `Set(value)`);
- the names `os.listdir` returns for the work dir;
- the set of paths that exist.

The git dir is an opaque string. The build command's captured
`(stdout, stderr, returncode)` is a `CommandResult` argument. It is consulted
only when the checks decide to run the command.

## Model

| member | source | states |
|---|---|---|
| PyText.Filter | src/setuptools_scm/pre_commit_hook.py:56 | Every kept item is an input item that passes the predicate, and every input item that passes is kept. |
| PyText.FilterCounts | src/setuptools_scm/pre_commit_hook.py:56 | An accepted value occurs in the filtered list exactly as often as in the input; a rejected value does not occur at all. |
| PyText.FilterAppend | src/setuptools_scm/pre_commit_hook.py:56 | Filtering a concatenation is the concatenation of the filtered parts, so the kept items keep their input order. |
| PyText.RFind | src/setuptools_scm/pre_commit_hook.py:56 | The last index holding the character, or -1 exactly when the character is absent. No later index holds it. |
| PyText.JoinWith | src/setuptools_scm/pre_commit_hook.py:77 | `sep.join` of a non-empty list starts with its first part; of an empty list it is the empty string. |
| PyText.JoinAppend | src/setuptools_scm/pre_commit_hook.py:77 | Joining two non-empty lists puts exactly one separator between their joins. |
| PyText.JoinLastTwo | src/setuptools_scm/pre_commit_hook.py:74-77 | Joining a list that ends in two parts ends with separator, first part, separator, second part, so the first of them occurs in the joined text. |
| PyText.ContainsMiddle | testing/test_git.py:552 | Text placed between two others occurs in the whole, in the sense of Python's `sub in s`. |
| PyText.SplitOn | src/setuptools_scm/pre_commit_hook.py:77 | The reader partner of `"\n".join`: splitting at a character gives at least one piece, no piece holds the character, and joining the pieces with it gives back the text. |
| PyText.SplitJoinRoundTrip | src/setuptools_scm/pre_commit_hook.py:77 | Splitting `"\n".join(parts)` at newlines returns `parts` when no part holds a newline. |
| PyRepr.StrRepr | src/setuptools_scm/pre_commit_hook.py:68 | `repr` of a string opens with CPython's chosen quote and never holds a raw newline. Read from just after the quote, it gives back the string and closes at its last character. |
| PyRepr.EscapeRoundTrip | src/setuptools_scm/pre_commit_hook.py:68 | The escaped body of any string is read back as that string, whatever follows it, and no character of it closes the literal early. |
| PyRepr.ReadOneChar | src/setuptools_scm/pre_commit_hook.py:68 | Each escape `repr` writes, including `\xhh`, is read back as the character it renders, using exactly its own length. |
| PyRepr.ReadChar | src/setuptools_scm/pre_commit_hook.py:68 | A rendered character never starts with the bare quote: it is read as itself, and reading continues right after it. |
| PyRepr.ListRepr | src/setuptools_scm/pre_commit_hook.py:68 | The `str` of an argument list is bracketed and stays on one line, whatever the arguments hold. |
| PyRepr.PlainListRepr | src/setuptools_scm/pre_commit_hook.py:68 | Printable-ASCII arguments without a single quote or backslash render as `['a', 'b']`, the form the test's expected `Running command` line has. |
| PosixPath.Join | src/setuptools_scm/pre_commit_hook.py:27-28 | An absolute second component replaces the first. Otherwise the result is the directory, then one `/` unless the directory is empty or already ends in `/`, then the name. |
| PosixPath.JoinInjective | src/setuptools_scm/pre_commit_hook.py:27-28 | For one directory, distinct relative names join to distinct paths. |
| PosixPath.Extension | src/setuptools_scm/pre_commit_hook.py:56 | `splitext(p)[-1]` is a suffix of the path. When non-empty it starts with its only dot and holds no separator. |
| PosixPath.ExtensionOfStem | src/setuptools_scm/pre_commit_hook.py:56 | `stem + ext` has the extension `ext` exactly when the stem's last component holds a non-dot character; otherwise the extension is empty. |
| PosixPath.SplitExt | src/setuptools_scm/pre_commit_hook.py:56 | The leading-dot-skipping loop of `splitext` returns a root and extension that concatenate to the path, and the extension agrees with `Extension`. |
| PreCommitHook.UpdateEggInfo | src/setuptools_scm/pre_commit_hook.py:31-78 | A non-zero exit code occurs only when the checks decide to run the command, and it is then the command's return code. Reading the reported message back gives the step the checks decided. |
| PreCommitHook.Decide | src/setuptools_scm/pre_commit_hook.py:38-65 | The command runs only when there is no opt-out, there is a setup script and there is an `.egg-info` entry. A rebase skip needs the flag off and a marker path present. An opt-out always wins. |
| PreCommitHook.RebaseMarkersDistinct | src/setuptools_scm/pre_commit_hook.py:27-28 | The `rebase-merge` and `rebase-apply` paths are distinct for every git dir. |
| PreCommitHook.IsGitRebasingMonotone | src/setuptools_scm/pre_commit_hook.py:26-29 | Adding existing paths can only turn rebase detection on. |
| PreCommitHook.IsGitRebasingOnlyMarkers | src/setuptools_scm/pre_commit_hook.py:26-29 | Only the two marker paths influence rebase detection. |
| PreCommitHook.SkipMessagesDiffer | src/setuptools_scm/pre_commit_hook.py:39-64 | Distinct skip reasons have distinct messages. |
| PreCommitHook.SkipMessagesDistinct | src/setuptools_scm/pre_commit_hook.py:39-64 | Each skip message reads back as its own reason. |
| PreCommitHook.StepOfRespond | src/setuptools_scm/pre_commit_hook.py:38-78 | For every step, reading the reported message back recovers the step; the run message is none of the skip messages. |
| PreCommitHook.RunLines | src/setuptools_scm/pre_commit_hook.py:68-75 | The output list is the header, one item per stdout character, then the error heading and stderr when the return code is non-zero and stderr is non-empty. |
| PreCommitHook.RunOutcome | src/setuptools_scm/pre_commit_hook.py:77-78 | The run path reports the command's own return code, and its message begins with the `Running command` line. |
| PreCommitHook.CharLinesJoin | src/setuptools_scm/pre_commit_hook.py:71-72 | The items added for stdout put back together are stdout itself. |
| PreCommitHook.SkipRequestedIff | src/setuptools_scm/pre_commit_hook.py:38 | `os.getenv(name, "0") != "0"` holds exactly when the variable is set to something other than `"0"`, including the empty string. |
| PreCommitHook.HasEggInfoDirIff | src/setuptools_scm/pre_commit_hook.py:56 | `any(filter(...))` holds exactly when some entry has the `.egg-info` extension. The truthiness test never rejects such an entry. |
| PreCommitHook.EggInfoNameIff | src/setuptools_scm/pre_commit_hook.py:56 | An entry passes the filter exactly when it ends in `.egg-info` after a stem whose last component holds a non-dot character. So `.egg-info` and `..egg-info` do not pass. |
| PreCommitHook.MoreEntriesKeepChecks | src/setuptools_scm/pre_commit_hook.py:50-56 | A listing that holds every name of another passes the setup-script and `.egg-info` checks whenever the other does. |
| PreCommitHook.SameEntriesSameOutcome | src/setuptools_scm/pre_commit_hook.py:46-56 | The order and repetition of the `os.listdir` entries do not affect the outcome; only which names are present does. |
| PreCommitHook.SkipOutcomeIff | src/setuptools_scm/pre_commit_hook.py:38-65 | A skip message with exit code 0 is reported for a reason exactly when the checks decide that skip. |
| PreCommitHook.EnvOptOutSkip | src/setuptools_scm/pre_commit_hook.py:38-43 | The opt-out message is reported exactly when the variable is set and not `"0"`, whatever the work dir, rebase state, flag or command. |
| PreCommitHook.NoSetupScriptSkip | src/setuptools_scm/pre_commit_hook.py:46-52 | The no-setup-script message is reported exactly when there is no opt-out and neither `setup.cfg` nor `setup.py` is an entry. |
| PreCommitHook.NoEggInfoDirIff | src/setuptools_scm/pre_commit_hook.py:56 | The `.egg-info` check fails exactly when no entry is an egg-info name. |
| PreCommitHook.NoEggInfoSkip | src/setuptools_scm/pre_commit_hook.py:56-58 | The no-egg-info message is reported exactly when there is no opt-out, there is a setup script, and no entry is an egg-info name. |
| PreCommitHook.RebaseSkip | src/setuptools_scm/pre_commit_hook.py:63-65 | The rebase message is reported exactly when the earlier checks pass, the flag is off and a marker path exists. |
| PreCommitHook.RunWhenReady | src/setuptools_scm/pre_commit_hook.py:63-78 | The command's outcome is reported exactly when no skip applies; with the flag, the rebase state is not a condition. |
| PreCommitHook.RunStep | src/setuptools_scm/pre_commit_hook.py:67-78 | Once the checks decide to run, the hook reports the run outcome of its own build command. |
| PreCommitHook.ForceIgnoresRebaseState | src/setuptools_scm/pre_commit_hook.py:63 | With `force_on_rebase` the outcome does not depend on the git dir or on which paths exist. |
| PreCommitHook.SkipsDoNotRunCommand | src/setuptools_scm/pre_commit_hook.py:38-65 | Every skip returns 0 and does not depend on the command's result. |
| PreCommitHook.NonZeroExitOnlyFromCommand | src/setuptools_scm/pre_commit_hook.py:38-78 | A non-zero exit code arises only on the run path from a non-zero return code, and the run path returns the command's return code unchanged. |
| PreCommitHook.HeaderOneLine | src/setuptools_scm/pre_commit_hook.py:68 | The `Running command` line of an argument-list command holds no newline. |
| PreCommitHook.NoErrorLines | src/setuptools_scm/pre_commit_hook.py:71-75 | Without a reported error, every item after the header is a single character. |
| PreCommitHook.ErrorLineIff | src/setuptools_scm/pre_commit_hook.py:73-75 | The error heading is among the output lines exactly when the return code is non-zero and stderr is non-empty. |
| PreCommitHook.ErrorHeadingInMessage | src/setuptools_scm/pre_commit_hook.py:73-77 | After a reported error, the joined message ends with a newline, the error heading, a newline and stderr, so the heading occurs in the message. |
| PreCommitHook.RunMessageFirstLine | src/setuptools_scm/pre_commit_hook.py:68-77 | For an argument list, the first line of the joined message is exactly the `Running command` line. |
| PreCommitHook.RunMessageLines | src/setuptools_scm/pre_commit_hook.py:71-77 | When neither stream holds a newline, splitting the message at newlines gives back the output list. |
| HookScenarios.PlainStemEggInfo | src/setuptools_scm/pre_commit_hook.py:56 | Any non-empty stem without a separator that does not start with a dot, followed by `.egg-info`, passes the filter. |
| HookScenarios.OrdinaryEggInfoName | src/setuptools_scm/pre_commit_hook.py:56 | `test_package.egg-info`, which `python setup.py egg_info` creates in the test, passes the filter. |
| HookScenarios.BareEggInfoName | src/setuptools_scm/pre_commit_hook.py:56 | An entry named exactly `.egg-info` does not pass the filter. |
| HookScenarios.DottedEggInfoName | src/setuptools_scm/pre_commit_hook.py:56 | `..egg-info` does not pass the filter either. |
| HookScenarios.NotEggInfoName | src/setuptools_scm/pre_commit_hook.py:56 | A name too short for `.egg-info`, or without a dot where `.egg-info` would start, does not pass the filter. |
| HookScenarios.GitDirHasNoExtension | src/setuptools_scm/pre_commit_hook.py:56 | `.git` has no extension, so it is not taken for an egg-info directory. |
| HookScenarios.SetupScriptExtension | src/setuptools_scm/pre_commit_hook.py:56 | `setup.py` has the extension `.py`, so it is not taken for an egg-info directory. |
| HookScenarios.PackageHasNoEggInfo | src/setuptools_scm/pre_commit_hook.py:50-56 | The package files `.git`, `setup.py`, `pyproject.toml` and `setup.cfg` include a setup script and no egg-info entry. |
| HookScenarios.InstalledHasEggInfo | src/setuptools_scm/pre_commit_hook.py:50-56 | With `test_package.egg-info` added, the work dir has both a setup script and an egg-info entry. |
| HookScenarios.TestFreshRepo | testing/test_git.py:477-480 | A work dir holding only `.git` yields the no-setup-script message with exit code 0. |
| HookScenarios.TestNotInstalled | testing/test_git.py:482-487 | With the package files written but no egg-info entry, the hook yields the no-egg-info message with exit code 0. |
| HookScenarios.TestOptOutSet | testing/test_git.py:496-504 | With the opt-out set to `1`, an editable install yields the opt-out message with exit code 0. |
| HookScenarios.TestOptOutZero | testing/test_git.py:506-510 | With the opt-out set to `0`, the command runs: the message begins with the `Running command` line and the exit code is the command's. |
| HookScenarios.TestEditableInstall | testing/test_git.py:516-520 | Without the variable and outside a rebase, the command runs and its header opens the message. This also covers the run after the rebase has finished. |
| HookScenarios.TestRebase | testing/test_git.py:525-537 | With `rebase-merge` present the hook skips with exit code 0, and with the post-rewrite flag it runs the command. |
| HookScenarios.TestFailingCommand | testing/test_git.py:540-552 | On the installed work dir that still holds the `version.py` written by the run at line 542, a command that fails with return code 1 and some stderr gives exit code 1, and the error heading occurs in the joined message. |

## Left out

- `main()`: the command-line entry point is not modelled. It parses `--post-rewrite` and the command list, calls the hook, prints the message and exits with the code. The model starts at `update_egg_info` with the flag and the command as arguments.
- `PreCommitHook.__init__` and `GitWorkdir`: git work-dir discovery (`from_potential_worktree`), `get_git_dir` and `do_ex` are in `git.py`. That file is not part of this model. The git dir is an opaque string. The command's captured output is a `CommandResult` argument, taken as `do_ex` returns it, including any whitespace stripping it does.
- Failures are not modelled: a work dir that `from_potential_worktree` cannot find, `get_git_dir` returning `None`, and exceptions from `os.listdir`, `os.path.exists` or the command. The model gives every call a value.
- Windows paths: `os.path` is modelled in its POSIX form only. `ntpath` also treats `\` and drive letters as separators, and this is not modelled.
- PyRepr.StrRepr: characters from U+0100 on are rendered verbatim. CPython also escapes the non-printable ones among them (`\u....`, `\U........`), and Unicode printability is not modelled.
- PreCommitHook.RunMessageFirstLine: stated for argument-list commands only. A single command string may itself hold newlines, so no first-line property holds for it.
- HookScenarios.TestOptOutZero, HookScenarios.TestEditableInstall, HookScenarios.TestRebase: the build command is arbitrary, so these state that the message begins with the `Running command` header rather than the concrete text `update-egg-info: Running command: ['python', 'setup.py', 'egg_info']`. `PlainListRepr` gives the general `['a', 'b']` form of that rendering. The effects of the command (the `version.py` file the test checks for) are outside the model.

=== FILE: hook_scenarios.dfy ===
/** The hook's documented behaviour on concrete inputs: the entry names the
    `.egg-info` check accepts, and the sequence of calls the hook's own test
    makes against one work dir, with the listings that work dir has at each
    call. The build command and the git dir are left arbitrary. */
module HookScenarios {
  import PyText
  import PosixPath
  import opened PreCommitHook

  /** A stem with no separator that does not start with a dot, followed by
      `.egg-info`, names an egg-info directory. */
  lemma PlainStemEggInfo(stem: string)
    requires |stem| > 0 && stem[0] != PosixPath.ExtSep && PosixPath.Sep !in stem
    ensures HasEggInfoExt(stem + EggInfoExt)
  {
    assert PosixPath.IsExtensionShaped(EggInfoExt) by {
      assert EggInfoExt[1..] == "egg-info";
    }
    assert PosixPath.BaseName(stem) == stem;
    PosixPath.ExtensionOfStem(stem, EggInfoExt);
  }

  /** The package's egg-info directory. */
  lemma OrdinaryEggInfoName()
    ensures HasEggInfoExt("test_package" + EggInfoExt)
  {
    assert PosixPath.Sep !in "test_package";
    PlainStemEggInfo("test_package");
  }

  /** An entry named exactly `.egg-info` is a hidden name, not an extension. */
  lemma BareEggInfoName()
    ensures !HasEggInfoExt(".egg-info")
  {
    assert ".egg-info"[..0] == "";
    EggInfoNameIff(".egg-info");
  }

  /** Leading dots are skipped, so `..egg-info` has no extension either. */
  lemma DottedEggInfoName()
    ensures !HasEggInfoExt("..egg-info")
  {
    assert "..egg-info"[..1] == ".";
    assert PosixPath.BaseName(".") == ".";
    EggInfoNameIff("..egg-info");
  }

  /** A name whose last nine characters do not start with a dot cannot have
      the `.egg-info` extension. */
  lemma NotEggInfoName(e: string)
    requires |e| < |EggInfoExt| || e[|e| - |EggInfoExt|] != PosixPath.ExtSep
    ensures !HasEggInfoExt(e)
  {
    EggInfoNameIff(e);
  }

  /** The repository directory `.git` is a hidden name with no extension. */
  lemma GitDirHasNoExtension()
    ensures PosixPath.Extension(".git") == ""
  {
    assert PosixPath.IsExtensionShaped(".git") by {
      assert ".git"[1..] == "git";
    }
    assert "" + ".git" == ".git";
    PosixPath.ExtensionOfStem("", ".git");
  }

  /** `setup.py` has the extension `.py`. */
  lemma SetupScriptExtension()
    ensures PosixPath.Extension("setup.py") == ".py"
  {
    var stem, x := "setup", ".py";
    assert "setup.py" == stem + x;
    assert PosixPath.IsExtensionShaped(x) by {
      assert x[1..] == "py";
    }
    assert PosixPath.BaseName(stem) == stem by {
      assert PosixPath.Sep !in stem;
    }
    assert stem[0] != '.';
    PosixPath.ExtensionOfStem(stem, x);
  }

  /** The work dir right after `git init`. */
  const FreshRepo: seq<string> := [".git"]

  /** The work dir after the test writes its package files. */
  const Package: seq<string> := [".git", "setup.py", "pyproject.toml", "setup.cfg"]

  /** The work dir after `python setup.py egg_info` (the generated `version.py`
      is deleted again by the test). */
  const Installed: seq<string> := Package + ["test_package" + EggInfoExt]

  /** The work dir once the build command has written `version.py` again. */
  const Built: seq<string> := Installed + ["version.py"]

  /** None of the package files is taken for an egg-info directory. */
  lemma PackageHasNoEggInfo()
    ensures HasSetupScript(Package) && !HasEggInfoDir(Package)
  {
    assert Package[1] == "setup.py";
    forall i | 0 <= i < |Package|
      ensures !HasEggInfoExt(Package[i])
    {
      var e := Package[i];
      assert |e| < |EggInfoExt| || e[|e| - |EggInfoExt|] != PosixPath.ExtSep by {
        if i == 2 {
          assert e[5] == 'j';
        } else if i == 3 {
          assert e[0] == 's';
        }
      }
      NotEggInfoName(e);
    }
    HasEggInfoDirIff(Package);
  }

  /** After `egg_info` the work dir is an editable install. */
  lemma InstalledHasEggInfo()
    ensures HasSetupScript(Installed) && HasEggInfoDir(Installed)
  {
    OrdinaryEggInfoName();
    assert Installed[1] == "setup.py";
    assert Installed[4] == "test_package" + EggInfoExt;
    HasEggInfoDirFromEntry(Installed, 4);
  }

  // The calls of the hook's own test against one work dir, in order.

  /** A fresh repository holds no setup script. */
  lemma TestFreshRepo(hook: Hook, result: CommandResult)
    ensures UpdateEggInfo(hook, Snapshot(Unset, FreshRepo, {}), false, result)
            == Outcome(SkipMessage(NoSetupScript), 0)
  {
  }

  /** A package that was never installed editable has no `.egg-info`. */
  lemma TestNotInstalled(hook: Hook, result: CommandResult)
    ensures UpdateEggInfo(hook, Snapshot(Unset, Package, {}), false, result)
            == Outcome(SkipMessage(NoEggInfo), 0)
  {
    PackageHasNoEggInfo();
  }

  /** The opt-out set to `1` skips an editable install. */
  lemma TestOptOutSet(hook: Hook, result: CommandResult)
    ensures UpdateEggInfo(hook, Snapshot(Set("1"), Installed, {}), false, result)
            == Outcome(SkipMessage(SkipRequested), 0)
  {
  }

  /** The opt-out set to `0` lets the command run: the message opens with the
      `Running command` line and the exit code is the command's. */
  lemma TestOptOutZero(hook: Hook, result: CommandResult)
    ensures var out := UpdateEggInfo(hook, Snapshot(Set("0"), Installed, {}), false, result);
            && out == RunOutcome(hook.buildCommand, result)
            && Header(hook.buildCommand) <= out.message
            && out.exitCode == result.returnCode
  {
    var snap := Snapshot(Set("0"), Installed, {});
    assert Decide(hook, snap, false) == RunBuild by {
      assert !SkipRequestedBy(snap.skipVar);
      InstalledHasEggInfo();
    }
    RunStep(hook, snap, false, result);
  }

  /** Without the variable and outside a rebase, as after a commit, checkout or
      merge, and again once the rebase has finished, the command runs. */
  lemma TestEditableInstall(hook: Hook, result: CommandResult)
    ensures var out := UpdateEggInfo(hook, Snapshot(Unset, Installed, {}), false, result);
            && out == RunOutcome(hook.buildCommand, result)
            && Header(hook.buildCommand) <= out.message
            && out.exitCode == result.returnCode
  {
    var snap := Snapshot(Unset, Installed, {});
    assert Decide(hook, snap, false) == RunBuild by {
      InstalledHasEggInfo();
    }
    RunStep(hook, snap, false, result);
  }

  /** During an interactive rebase (`rebase-merge` exists) the hook skips
      unless the post-rewrite flag is given. */
  lemma TestRebase(hook: Hook, result: CommandResult)
    ensures var rebasing := {PosixPath.Join(hook.gitDir, RebaseMerge)};
            && UpdateEggInfo(hook, Snapshot(Unset, Installed, rebasing), false, result)
               == Outcome(SkipMessage(RebaseInProgress), 0)
            && UpdateEggInfo(hook, Snapshot(Unset, Installed, rebasing), true, result)
               == RunOutcome(hook.buildCommand, result)
  {
    InstalledHasEggInfo();
  }

  /** A build command that fails with return code 1 and an error text makes the
      hook exit with 1 and report the error heading in its message. The work
      dir still holds the `version.py` of the previous run. */
  lemma TestFailingCommand(hook: Hook, failed: CommandResult)
    requires failed.returnCode == 1 && failed.stderr != ""
    ensures var out := UpdateEggInfo(hook, Snapshot(Unset, Built, {}), false, failed);
            && out.exitCode == 1
            && PyText.ContainsText(out.message, ErrorHeading)
  {
    var snap := Snapshot(Unset, Built, {});
    assert Decide(hook, snap, false) == RunBuild by {
      InstalledHasEggInfo();
      assert forall e :: e in Installed ==> e in Built;
      MoreEntriesKeepChecks(Installed, Built);
    }
    RunStep(hook, snap, false, failed);
    ErrorHeadingInMessage(hook.buildCommand, failed);
  }
}

=== FILE: posix_path.dfy ===
/** The two `os.path` functions the egg-info hook calls, in their POSIX form:
    `join` of two components and the extension half of `splitext`. */
module PosixPath {
  import PyText

  const Sep: char := '/'
  const ExtSep: char := '.'

  /** `os.path.join(a, b)`: an absolute `b` replaces `a`; otherwise `b` is
      appended, with one `/` inserted unless `a` is empty or already ends in `/`. */
  function Join(a: string, b: string): (r: string)
    ensures |b| > 0 && b[0] == Sep ==> r == b
    ensures !(|b| > 0 && b[0] == Sep) ==>
              && |r| == |a| + |b| + (if |a| == 0 || a[|a| - 1] == Sep then 0 else 1)
              && r[..|a|] == a && r[|r| - |b|..] == b
              && (|r| > |a| + |b| ==> r[|a|] == Sep)
  {
    if |b| > 0 && b[0] == Sep then b
    else if |a| == 0 || a[|a| - 1] == Sep then a + b
    else a + [Sep] + b
  }

  /** For a fixed directory, distinct relative names give distinct joined paths. */
  lemma JoinInjective(a: string, b1: string, b2: string)
    requires |b1| > 0 && b1[0] != Sep
    requires |b2| > 0 && b2[0] != Sep
    requires Join(a, b1) == Join(a, b2)
    ensures b1 == b2
  {
    var glue := if |a| == 0 || a[|a| - 1] == Sep then a else a + [Sep];
    assert Join(a, b1) == glue + b1;
    assert Join(a, b2) == glue + b2;
    assert b1 == Join(a, b1)[|glue|..];
  }

  /** Some character in `s[lo..hi]` is not a dot. */
  predicate HasNonDot(s: string, lo: int, hi: int)
    requires 0 <= lo <= hi <= |s|
  {
    exists k :: lo <= k < hi && s[k] != ExtSep
  }

  /** `os.path.splitext(p)[1]`: the text from the last dot, when that dot lies
      in the last path component and is preceded there by some character other
      than a dot; otherwise empty. So a leading dot (as in `.egg-info`) never
      starts an extension. A non-empty extension is a suffix of `p` that starts
      with its only dot and holds no separator. */
  function Extension(p: string): (ext: string)
    ensures |ext| <= |p| && ext == p[|p| - |ext|..]
    ensures ext != "" ==> ext[0] == ExtSep && ExtSep !in ext[1..] && Sep !in ext
  {
    var sepIndex := PyText.RFind(p, Sep);
    var dotIndex := PyText.RFind(p, ExtSep);
    if dotIndex > sepIndex && HasNonDot(p, sepIndex + 1, dotIndex) then
      assert forall j :: 0 <= j < |p[dotIndex..]| ==> p[dotIndex..][j] == p[dotIndex + j];
      p[dotIndex..]
    else ""
  }

  /** The last path component of `p` (`os.path.basename`). */
  function BaseName(p: string): (r: string)
    ensures Sep !in r
    ensures |r| <= |p| && r == p[|p| - |r|..]
  {
    p[PyText.RFind(p, Sep) + 1..]
  }

  /** A suffix that starts with its only dot and holds no separator. */
  predicate IsExtensionShaped(x: string)
  {
    |x| > 0 && x[0] == ExtSep && ExtSep !in x[1..] && Sep !in x
  }

  /** `splitext` characterised by the name's parts: `stem + x` has extension
      `x` exactly when the last component of `stem` holds a non-dot character;
      otherwise it has no extension at all. */
  lemma ExtensionOfStem(stem: string, x: string)
    requires IsExtensionShaped(x)
    ensures Extension(stem + x) == x <==> exists k :: 0 <= k < |BaseName(stem)| && BaseName(stem)[k] != ExtSep
    ensures Extension(stem + x) != x ==> Extension(stem + x) == ""
  {
    var p := stem + x;
    var sepIndex := PyText.RFind(stem, Sep);
    PyText.RFindAppendWithout(stem, x, Sep);
    assert PyText.RFind(p, Sep) == sepIndex;
    LastDotOfShapedSuffix(stem, x);
    assert p[|stem|..] == x;
    assert Extension(p) == (if HasNonDot(p, sepIndex + 1, |stem|) then x else "");
    NonDotInBaseName(stem, x);
  }

  /** The only dot of an extension-shaped suffix is the last dot of the whole name. */
  lemma LastDotOfShapedSuffix(stem: string, x: string)
    requires IsExtensionShaped(x)
    ensures PyText.RFind(stem + x, ExtSep) == |stem|
  {
    var p := stem + x;
    forall j | |stem| < j < |p|
      ensures p[j] != ExtSep
    {
      assert p[j] == x[1..][j - |stem| - 1];
    }
    PyText.RFindIsLast(p, ExtSep, |stem|);
  }

  /** Text appended after `hi` does not change what lies before it. */
  lemma HasNonDotPrefix(s: string, t: string, lo: int, hi: int)
    requires 0 <= lo <= hi <= |s|
    ensures HasNonDot(s + t, lo, hi) == HasNonDot(s, lo, hi)
  {
    assert forall k :: lo <= k < hi ==> (s + t)[k] == s[k];
  }

  /** The file-name part of `stem + x` before `x` is the base name of `stem`. */
  lemma NonDotInBaseName(stem: string, x: string)
    ensures var sepIndex := PyText.RFind(stem, Sep);
            HasNonDot(stem + x, sepIndex + 1, |stem|)
            <==> exists k :: 0 <= k < |BaseName(stem)| && BaseName(stem)[k] != ExtSep
  {
    var sepIndex := PyText.RFind(stem, Sep);
    HasNonDotPrefix(stem, x, sepIndex + 1, |stem|);
    var base := BaseName(stem);
    assert base == stem[sepIndex + 1..];
    var inBase := exists k :: 0 <= k < |base| && base[k] != ExtSep;
    if HasNonDot(stem, sepIndex + 1, |stem|) {
      var k :| sepIndex + 1 <= k < |stem| && stem[k] != ExtSep;
      assert base[k - sepIndex - 1] == stem[k];
      assert inBase;
    }
    if inBase {
      var k :| 0 <= k < |base| && base[k] != ExtSep;
      assert stem[sepIndex + 1 + k] == base[k];
      assert HasNonDot(stem, sepIndex + 1, |stem|);
    }
    assert HasNonDot(stem + x, sepIndex + 1, |stem|) <==> inBase;
  }

  /** A reference implementation that mirrors CPython's `genericpath._splitext`:
      find the last separator and the last dot, then skip the leading dots of
      the file name before accepting the dot. It agrees with `Extension`, and
      the two halves put back together give the path. */
  method SplitExt(p: string) returns (root: string, ext: string)
    ensures root + ext == p
    ensures ext == Extension(p)
  {
    var sepIndex := PyText.RFind(p, Sep);
    var dotIndex := PyText.RFind(p, ExtSep);
    if dotIndex > sepIndex {
      var filenameIndex := sepIndex + 1;
      while filenameIndex < dotIndex
        invariant sepIndex + 1 <= filenameIndex <= dotIndex
        invariant forall k :: sepIndex + 1 <= k < filenameIndex ==> p[k] == ExtSep
      {
        if p[filenameIndex] != ExtSep {
          assert HasNonDot(p, sepIndex + 1, dotIndex);
          return p[..dotIndex], p[dotIndex..];
        }
        filenameIndex := filenameIndex + 1;
      }
    }
    return p, "";
  }
}

=== FILE: pre_commit_hook.dfy ===
/** The editable-install refresh hook: given what it observes (the opt-out
    environment variable, the entries of the work dir, the paths that exist,
    the post-rewrite flag and, when it gets that far, the result of the build
    command), decide whether to skip or to run the build command and produce the
    `(message, exit code)` pair the hook reports.

    The checks run in a fixed order: the environment opt-out first, then the
    setup script, then the `.egg-info` entry, then rebase detection unless the
    post-rewrite flag forces the run. */
module PreCommitHook {
  import PyText
  import PyRepr
  import PosixPath

  const SkipVar: string := "SETUPTOOLS_SCM_SKIP_UPDATE_EGG_INFO"
  const EggInfoExt: string := ".egg-info"
  const RebaseMerge: string := "rebase-merge"
  const RebaseApply: string := "rebase-apply"
  const RunningPrefix: string := "update-egg-info: Running command: "
  const ErrorHeading: string := "update-egg-info: Error running build_command:"

  /** The value of an environment variable, or its absence. */
  datatype EnvValue = Unset | Set(value: string)

  /** The build command: an argument list (what the command line always passes)
      or a single command string. */
  datatype BuildCommand = ArgList(args: seq<string>) | CommandText(text: string)

  /** The hook object: its build command and the git dir of its work dir. */
  datatype Hook = Hook(buildCommand: BuildCommand, gitDir: string)

  /** What the hook observes of its environment when it is called. */
  datatype Snapshot = Snapshot(skipVar: EnvValue, entries: seq<string>, existingPaths: set<string>)

  /** Captured standard output, standard error and return code of the build command. */
  datatype CommandResult = CommandResult(stdout: string, stderr: string, returnCode: int)

  /** The message the hook prints and the exit code it returns. */
  datatype Outcome = Outcome(message: string, exitCode: int)

  datatype SkipReason = SkipRequested | NoSetupScript | NoEggInfo | RebaseInProgress

  /** What the ordered checks decide. */
  datatype Step = Skip(reason: SkipReason) | RunBuild

  /** `os.getenv(name, default)`. */
  function GetEnv(v: EnvValue, default: string): string
  {
    match v
    case Unset => default
    case Set(s) => s
  }

  /** The opt-out: the variable, read with default `"0"`, is anything but `"0"`. */
  predicate SkipRequestedBy(v: EnvValue)
  {
    GetEnv(v, "0") != "0"
  }

  /** Only a set variable whose value differs from `"0"` opts out, the empty value included. */
  lemma SkipRequestedIff(v: EnvValue)
    ensures SkipRequestedBy(v) <==> v.Set? && v.value != "0"
  {
  }

  predicate HasSetupScript(entries: seq<string>)
  {
    "setup.cfg" in entries || "setup.py" in entries
  }

  /** `splitext(e)[-1] == ".egg-info"`. */
  predicate HasEggInfoExt(e: string)
  {
    PosixPath.Extension(e) == EggInfoExt
  }

  /** `filter(lambda i: splitext(i)[-1] == ".egg-info", entries)`. */
  function EggInfoEntries(entries: seq<string>): seq<string>
  {
    PyText.Filter(entries, HasEggInfoExt)
  }

  /** `any(xs)` for a list of `str`: some item is non-empty. */
  predicate AnyTruthy(xs: seq<string>)
  {
    exists i :: 0 <= i < |xs| && xs[i] != ""
  }

  /** `any(filter(...))`: some filtered entry is truthy. */
  predicate HasEggInfoDir(entries: seq<string>)
  {
    AnyTruthy(EggInfoEntries(entries))
  }

  lemma EggInfoNameNonEmpty(e: string)
    requires HasEggInfoExt(e)
    ensures e != ""
  {
    assert |PosixPath.Extension(e)| == |EggInfoExt|;
  }

  /** An entry with the extension makes the filtered list truthy. */
  lemma HasEggInfoDirFromEntry(entries: seq<string>, i: int)
    requires 0 <= i < |entries| && HasEggInfoExt(entries[i])
    ensures HasEggInfoDir(entries)
  {
    var r := EggInfoEntries(entries);
    var k :| 0 <= k < |r| && r[k] == entries[i];
    EggInfoNameNonEmpty(r[k]);
  }

  /** A truthy filtered entry is an entry with the extension. */
  lemma EntryFromHasEggInfoDir(entries: seq<string>) returns (i: int)
    requires HasEggInfoDir(entries)
    ensures 0 <= i < |entries| && HasEggInfoExt(entries[i])
  {
    var r := EggInfoEntries(entries);
    var k :| 0 <= k < |r| && r[k] != "";
    i :| 0 <= i < |entries| && entries[i] == r[k];
  }

  /** The truthiness test of `any` is harmless: an entry with a `.egg-info`
      extension is never empty, so the check holds exactly when some entry has
      that extension. */
  lemma HasEggInfoDirIff(entries: seq<string>)
    ensures HasEggInfoDir(entries) <==> exists i :: 0 <= i < |entries| && HasEggInfoExt(entries[i])
  {
    if HasEggInfoDir(entries) {
      var i := EntryFromHasEggInfoDir(entries);
    }
    if exists i :: 0 <= i < |entries| && HasEggInfoExt(entries[i]) {
      var i :| 0 <= i < |entries| && HasEggInfoExt(entries[i]);
      HasEggInfoDirFromEntry(entries, i);
    }
  }

  /** A name that ends in `.egg-info` after a stem whose last component has a non-dot character. */
  predicate IsEggInfoName(e: string)
  {
    && |e| >= |EggInfoExt|
    && e[|e| - |EggInfoExt|..] == EggInfoExt
    && var base := PosixPath.BaseName(e[..|e| - |EggInfoExt|]);
       exists k :: 0 <= k < |base| && base[k] != PosixPath.ExtSep
  }

  /** Which entry names the `.egg-info` check accepts, in terms of the name alone. */
  lemma EggInfoNameIff(e: string)
    ensures HasEggInfoExt(e) <==> IsEggInfoName(e)
  {
    assert PosixPath.IsExtensionShaped(EggInfoExt) by {
      assert EggInfoExt[1..] == "egg-info";
    }
    if |e| >= |EggInfoExt| && e[|e| - |EggInfoExt|..] == EggInfoExt {
      var stem := e[..|e| - |EggInfoExt|];
      assert e == stem + EggInfoExt;
      PosixPath.ExtensionOfStem(stem, EggInfoExt);
    }
  }

  /** The two git-dir paths whose existence means a rebase is under way. */
  function RebasePaths(gitDir: string): set<string>
  {
    {PosixPath.Join(gitDir, RebaseMerge), PosixPath.Join(gitDir, RebaseApply)}
  }

  /** `is_git_rebasing`: `rebase-merge` or `rebase-apply` exists under the git
      dir; in set terms, some marker path is among the existing paths. */
  predicate IsGitRebasing(gitDir: string, existing: set<string>)
    ensures IsGitRebasing(gitDir, existing) <==> existing * RebasePaths(gitDir) != {}
  {
    assert PosixPath.Join(gitDir, RebaseMerge) in existing ==> PosixPath.Join(gitDir, RebaseMerge) in existing * RebasePaths(gitDir);
    assert PosixPath.Join(gitDir, RebaseApply) in existing ==> PosixPath.Join(gitDir, RebaseApply) in existing * RebasePaths(gitDir);

    PosixPath.Join(gitDir, RebaseMerge) in existing || PosixPath.Join(gitDir, RebaseApply) in existing
  }

  /** The two marker paths are distinct for every git dir. */
  lemma RebaseMarkersDistinct(gitDir: string)
    ensures |RebasePaths(gitDir)| == 2
  {
    assert RebaseMerge[7] != RebaseApply[7];
    if PosixPath.Join(gitDir, RebaseMerge) == PosixPath.Join(gitDir, RebaseApply) {
      PosixPath.JoinInjective(gitDir, RebaseMerge, RebaseApply);
    }
  }

  /** More existing paths can only turn rebase detection from false to true. */
  lemma IsGitRebasingMonotone(gitDir: string, fewer: set<string>, more: set<string>)
    requires fewer <= more
    ensures IsGitRebasing(gitDir, fewer) ==> IsGitRebasing(gitDir, more)
  {
  }

  /** Paths other than the two markers never change the answer. */
  lemma IsGitRebasingOnlyMarkers(gitDir: string, existing: set<string>)
    ensures IsGitRebasing(gitDir, existing) == IsGitRebasing(gitDir, existing * RebasePaths(gitDir))
  {
  }

  /** The ordered checks of `update_egg_info`. With `forceOnRebase` the rebase
      state is not consulted at all. */
  function Decide(hook: Hook, snap: Snapshot, forceOnRebase: bool): (step: Step)
    ensures step == RunBuild ==>
              !SkipRequestedBy(snap.skipVar) && HasSetupScript(snap.entries) && HasEggInfoDir(snap.entries)
    ensures step == Skip(RebaseInProgress) ==>
              !forceOnRebase && snap.existingPaths * RebasePaths(hook.gitDir) != {}
    ensures SkipRequestedBy(snap.skipVar) ==> step == Skip(SkipRequested)
  {
    if SkipRequestedBy(snap.skipVar) then Skip(SkipRequested)
    else if !HasSetupScript(snap.entries) then Skip(NoSetupScript)
    else if !HasEggInfoDir(snap.entries) then Skip(NoEggInfo)
    else if !forceOnRebase && IsGitRebasing(hook.gitDir, snap.existingPaths) then Skip(RebaseInProgress)
    else RunBuild
  }

  const SkipPrefix: string := "update-egg-info: Skipping, "

  /** What follows the common opening of each skip message. */
  function SkipDetail(reason: SkipReason): string
  {
    match reason
    case SkipRequested => "\"" + SkipVar + "\" env var set."
    case NoSetupScript => "no setup script found."
    case NoEggInfo => "no .egg-info directory found."
    case RebaseInProgress => "rebase in progress."
  }

  /** The message of each skip; all of them open alike, and they differ only
      after the opening. */
  function SkipMessage(reason: SkipReason): string
  {
    SkipPrefix + SkipDetail(reason)
  }

  /** The f-string rendering `{build_command}`: `str` of the command. */
  function Display(cmd: BuildCommand): string
  {
    match cmd
    case ArgList(args) => PyRepr.ListRepr(args)
    case CommandText(text) => text
  }

  function Header(cmd: BuildCommand): string
  {
    RunningPrefix + Display(cmd)
  }

  /** Position 17 is where `Running` starts; skip messages have `Skipping` there. */
  lemma HeaderMarker(cmd: BuildCommand)
    ensures |Header(cmd)| > 17 && Header(cmd)[17] == 'R'
  {
  }

  /** The rendering of an argument list keeps the `Running command` line on one line. */
  lemma HeaderOneLine(args: seq<string>)
    ensures '\n' !in Header(ArgList(args))
  {
    assert '\n' !in RunningPrefix;
  }

  /** `output += cmd_out`: extending a list with a `str` adds one item per character. */
  function CharLines(s: string): seq<string>
  {
    seq(|s|, i requires 0 <= i < |s| => [s[i]])
  }

  /** `if returncode and error`: a non-zero return code with non-empty standard error. */
  predicate ErrorReported(result: CommandResult)
  {
    result.returnCode != 0 && result.stderr != ""
  }

  /** The output list of the run path, before it is joined: the `Running
      command` line, one line per character of standard output, and the error
      heading with standard error only when the return code is non-zero and
      standard error is non-empty. */
  function RunLines(cmd: BuildCommand, result: CommandResult): (lines: seq<string>)
    ensures |lines| == 1 + |result.stdout| + (if ErrorReported(result) then 2 else 0)
    ensures lines[0] == RunningPrefix + Display(cmd)
    ensures forall i :: 0 <= i < |result.stdout| ==> lines[1 + i] == [result.stdout[i]]
    ensures ErrorReported(result) ==> lines[|lines| - 2] == ErrorHeading && lines[|lines| - 1] == result.stderr
  {
    var output := [Header(cmd)];
    var output := if result.stdout != "" then output + CharLines(result.stdout) else output;
    if ErrorReported(result) then output + [ErrorHeading, result.stderr] else output
  }

  /** The run path: the joined output lines, which open with the `Running
      command` line, and the command's own return code. */
  function RunOutcome(cmd: BuildCommand, result: CommandResult): (out: Outcome)
    ensures out.exitCode == result.returnCode
    ensures Header(cmd) <= out.message
  {
    Outcome(PyText.JoinWith("\n", RunLines(cmd, result)), result.returnCode)
  }

  /** `update_egg_info(force_on_rebase)`. `result` is what the build command
      returns if the hook gets as far as running it. */
  function UpdateEggInfo(hook: Hook, snap: Snapshot, forceOnRebase: bool, result: CommandResult): (out: Outcome)
    ensures out.exitCode != 0 ==> Decide(hook, snap, forceOnRebase) == RunBuild && out.exitCode == result.returnCode
    ensures StepOf(out.message) == Decide(hook, snap, forceOnRebase)
  {
    StepOfRespond(Decide(hook, snap, forceOnRebase), hook.buildCommand, result);
    Respond(Decide(hook, snap, forceOnRebase), hook.buildCommand, result)
  }

  /** What the hook reports for a decided step. */
  function Respond(step: Step, cmd: BuildCommand, result: CommandResult): Outcome
  {
    match step
    case Skip(reason) => Outcome(SkipMessage(reason), 0)
    case RunBuild => RunOutcome(cmd, result)
  }

  /** Once the checks decide to run, the hook reports the command's outcome. */
  lemma RunStep(hook: Hook, snap: Snapshot, forceOnRebase: bool, result: CommandResult)
    requires Decide(hook, snap, forceOnRebase) == RunBuild
    ensures UpdateEggInfo(hook, snap, forceOnRebase, result) == RunOutcome(hook.buildCommand, result)
  {
  }

  // ---------------------------------------------------------------------------
  // The message partner: a reader of the output can tell which step was taken.

  /** Reads the step back from a reported message. */
  function StepOf(message: string): Step
  {
    if message == SkipMessage(SkipRequested) then Skip(SkipRequested)
    else if message == SkipMessage(NoSetupScript) then Skip(NoSetupScript)
    else if message == SkipMessage(NoEggInfo) then Skip(NoEggInfo)
    else if message == SkipMessage(RebaseInProgress) then Skip(RebaseInProgress)
    else RunBuild
  }

  /** The first and fourth characters of a skip detail tell the reasons apart. */
  function DetailKey(reason: SkipReason): (char, char)
  {
    match reason
    case SkipRequested => ('"', 'T')
    case NoSetupScript => ('n', 's')
    case NoEggInfo => ('n', '.')
    case RebaseInProgress => ('r', 'a')
  }

  lemma DetailKeyMatches(reason: SkipReason)
    ensures |SkipDetail(reason)| > 3
    ensures (SkipDetail(reason)[0], SkipDetail(reason)[3]) == DetailKey(reason)
  {
  }

  /** Distinct reasons have distinct messages. */
  lemma SkipMessagesDiffer(r1: SkipReason, r2: SkipReason)
    requires r1 != r2
    ensures SkipMessage(r1) != SkipMessage(r2)
  {
    DetailKeyMatches(r1);
    DetailKeyMatches(r2);
  }

  /** Every skip message reads back as its own reason. */
  lemma SkipMessagesDistinct(reason: SkipReason)
    ensures StepOf(SkipMessage(reason)) == Skip(reason)
  {
    if reason != SkipRequested {
      SkipMessagesDiffer(reason, SkipRequested);
    }
    if reason != NoSetupScript {
      SkipMessagesDiffer(reason, NoSetupScript);
    }
    if reason != NoEggInfo {
      SkipMessagesDiffer(reason, NoEggInfo);
    }
  }

  lemma RunMessageMarker(cmd: BuildCommand, result: CommandResult)
    ensures |RunOutcome(cmd, result).message| > 17 && RunOutcome(cmd, result).message[17] == 'R'
  {
    HeaderMarker(cmd);
  }

  /** No skip message has an `R` where the run message's `Running` starts. */
  lemma RunMessageIsNoSkip(m: string)
    requires |m| > 17 && m[17] == 'R'
    ensures StepOf(m) == RunBuild
  {
    SkipMessageMarker(SkipRequested);
    SkipMessageMarker(NoSetupScript);
    SkipMessageMarker(NoEggInfo);
    SkipMessageMarker(RebaseInProgress);
  }

  lemma SkipMessageMarker(reason: SkipReason)
    ensures |SkipMessage(reason)| > 17 && SkipMessage(reason)[17] == 'S'
  {
  }

  /** The reported message identifies the step: skip messages are pairwise
      distinct and the run message is none of them. */
  lemma StepOfRespond(step: Step, cmd: BuildCommand, result: CommandResult)
    ensures StepOf(Respond(step, cmd, result).message) == step
  {
    if step.Skip? {
      SkipMessagesDistinct(step.reason);
    } else {
      RunMessageMarker(cmd, result);
      RunMessageIsNoSkip(RunOutcome(cmd, result).message);
    }
  }

  // ---------------------------------------------------------------------------
  // The ordered skip cascade, one outcome at a time.

  /** A skip outcome is reported exactly when the checks decide that skip. */
  lemma SkipOutcomeIff(hook: Hook, snap: Snapshot, forceOnRebase: bool, result: CommandResult, reason: SkipReason)
    ensures UpdateEggInfo(hook, snap, forceOnRebase, result) == Outcome(SkipMessage(reason), 0)
            <==> Decide(hook, snap, forceOnRebase) == Skip(reason)
  {
    StepOfRespond(Decide(hook, snap, forceOnRebase), hook.buildCommand, result);
    SkipMessagesDistinct(reason);
  }

  /** The environment opt-out wins over everything else: work-dir contents,
      rebase state, the post-rewrite flag and the command. */
  lemma EnvOptOutSkip(hook: Hook, snap: Snapshot, forceOnRebase: bool, result: CommandResult)
    ensures UpdateEggInfo(hook, snap, forceOnRebase, result) == Outcome(SkipMessage(SkipRequested), 0)
            <==> snap.skipVar.Set? && snap.skipVar.value != "0"
  {
    SkipOutcomeIff(hook, snap, forceOnRebase, result, SkipRequested);
  }

  /** Without the opt-out, a work dir with neither `setup.cfg` nor `setup.py` is skipped. */
  lemma NoSetupScriptSkip(hook: Hook, snap: Snapshot, forceOnRebase: bool, result: CommandResult)
    ensures UpdateEggInfo(hook, snap, forceOnRebase, result) == Outcome(SkipMessage(NoSetupScript), 0)
            <==> !SkipRequestedBy(snap.skipVar)
                 && "setup.cfg" !in snap.entries && "setup.py" !in snap.entries
  {
    SkipOutcomeIff(hook, snap, forceOnRebase, result, NoSetupScript);
  }

  /** No entry name is an egg-info name exactly when the `any(filter(...))` check fails. */
  lemma NoEggInfoDirIff(entries: seq<string>)
    ensures !HasEggInfoDir(entries) <==> forall i :: 0 <= i < |entries| ==> !IsEggInfoName(entries[i])
  {
    HasEggInfoDirIff(entries);
    forall i | 0 <= i < |entries|
      ensures HasEggInfoExt(entries[i]) <==> IsEggInfoName(entries[i])
    {
      EggInfoNameIff(entries[i]);
    }
  }

  /** With a setup script but no entry whose extension is `.egg-info`, the hook skips. */
  lemma NoEggInfoSkip(hook: Hook, snap: Snapshot, forceOnRebase: bool, result: CommandResult)
    ensures UpdateEggInfo(hook, snap, forceOnRebase, result) == Outcome(SkipMessage(NoEggInfo), 0)
            <==> !SkipRequestedBy(snap.skipVar) && HasSetupScript(snap.entries)
                 && forall i :: 0 <= i < |snap.entries| ==> !IsEggInfoName(snap.entries[i])
  {
    SkipOutcomeIff(hook, snap, forceOnRebase, result, NoEggInfo);
    NoEggInfoDirIff(snap.entries);
  }

  /** When the earlier checks pass, an existing rebase marker skips the run
      unless the post-rewrite flag is given. */
  lemma RebaseSkip(hook: Hook, snap: Snapshot, forceOnRebase: bool, result: CommandResult)
    ensures UpdateEggInfo(hook, snap, forceOnRebase, result) == Outcome(SkipMessage(RebaseInProgress), 0)
            <==> !SkipRequestedBy(snap.skipVar) && HasSetupScript(snap.entries)
                 && HasEggInfoDir(snap.entries) && !forceOnRebase
                 && snap.existingPaths * RebasePaths(hook.gitDir) != {}
  {
    SkipOutcomeIff(hook, snap, forceOnRebase, result, RebaseInProgress);
  }

  /** The build command runs, and its outcome is reported, exactly when no skip applies. */
  lemma RunWhenReady(hook: Hook, snap: Snapshot, forceOnRebase: bool, result: CommandResult)
    ensures UpdateEggInfo(hook, snap, forceOnRebase, result) == RunOutcome(hook.buildCommand, result)
            <==> !SkipRequestedBy(snap.skipVar) && HasSetupScript(snap.entries)
                 && HasEggInfoDir(snap.entries)
                 && (forceOnRebase || snap.existingPaths * RebasePaths(hook.gitDir) == {})
  {
    StepOfRespond(Decide(hook, snap, forceOnRebase), hook.buildCommand, result);
    StepOfRespond(RunBuild, hook.buildCommand, result);
  }

  /** With the post-rewrite flag neither the git dir nor the existing paths matter. */
  lemma ForceIgnoresRebaseState(cmd: BuildCommand, gitDir1: string, gitDir2: string,
                                skipVar: EnvValue, entries: seq<string>,
                                existing1: set<string>, existing2: set<string>, result: CommandResult)
    ensures UpdateEggInfo(Hook(cmd, gitDir1), Snapshot(skipVar, entries, existing1), true, result)
            == UpdateEggInfo(Hook(cmd, gitDir2), Snapshot(skipVar, entries, existing2), true, result)
  {
  }

  /** A skip returns 0 and never looks at the build command's result, so the
      command is not run. */
  lemma SkipsDoNotRunCommand(hook: Hook, snap: Snapshot, forceOnRebase: bool,
                             result1: CommandResult, result2: CommandResult)
    requires Decide(hook, snap, forceOnRebase).Skip?
    ensures UpdateEggInfo(hook, snap, forceOnRebase, result1).exitCode == 0
    ensures UpdateEggInfo(hook, snap, forceOnRebase, result1) == UpdateEggInfo(hook, snap, forceOnRebase, result2)
  {
  }

  /** A non-zero exit code comes only from the build command's own return code. */
  lemma NonZeroExitOnlyFromCommand(hook: Hook, snap: Snapshot, forceOnRebase: bool, result: CommandResult)
    ensures UpdateEggInfo(hook, snap, forceOnRebase, result).exitCode != 0 ==>
            Decide(hook, snap, forceOnRebase) == RunBuild && result.returnCode != 0
    ensures Decide(hook, snap, forceOnRebase) == RunBuild ==>
            UpdateEggInfo(hook, snap, forceOnRebase, result).exitCode == result.returnCode
  {
  }

  // ---------------------------------------------------------------------------
  // The run path's output.

  /** Without a reported error every line after the first is a single character. */
  lemma NoErrorLines(cmd: BuildCommand, result: CommandResult)
    requires !ErrorReported(result)
    ensures forall i :: 1 <= i < |RunLines(cmd, result)| ==> |RunLines(cmd, result)[i]| == 1
  {
  }

  /** The error heading has `Error` where the `Running command` line has `Running`. */
  lemma ErrorHeadingMarker()
    ensures |ErrorHeading| > 17 && ErrorHeading[17] == 'E'
  {
  }

  /** A text longer than one character that differs from the first line is not
      among lines whose later entries are single characters. */
  lemma NotAmongLines(lines: seq<string>, x: string)
    requires |lines| > 0 && lines[0] != x && |x| != 1
    requires forall i :: 1 <= i < |lines| ==> |lines[i]| == 1
    ensures x !in lines
  {
  }

  /** The error heading is among the output lines exactly when the command
      failed with something on standard error; a zero return code never shows it. */
  lemma ErrorLineIff(cmd: BuildCommand, result: CommandResult)
    ensures ErrorHeading in RunLines(cmd, result) <==> result.returnCode != 0 && result.stderr != ""
  {
    var lines := RunLines(cmd, result);
    if ErrorReported(result) {
        assert lines[|lines| - 2] == ErrorHeading;
    } else {
      NoErrorLines(cmd, result);
      HeaderMarker(cmd);
      ErrorHeadingMarker();
      NotAmongLines(lines, ErrorHeading);
    }
  }

  /** For an argument-list command the first line of the message is exactly the
      `Running command` line: the rendered list never holds a newline. */
  lemma RunMessageFirstLine(args: seq<string>, result: CommandResult)
    ensures PyText.SplitOn(RunOutcome(ArgList(args), result).message, '\n')[0]
            == RunningPrefix + PyRepr.ListRepr(args)
  {
    var lines := RunLines(ArgList(args), result);
    var h := lines[0];
    HeaderOneLine(args);
    if |lines| == 1 {
      PyText.FirstPiece(h, '\n', "");
    } else {
      assert RunOutcome(ArgList(args), result).message == h + "\n" + PyText.JoinWith("\n", lines[1..]);
      PyText.FirstPiece(h, '\n', PyText.JoinWith("\n", lines[1..]));
    }
  }

  /** When neither captured stream holds a newline, splitting the message at
      newlines gives back the output list line for line. */
  lemma RunMessageLines(args: seq<string>, result: CommandResult)
    requires '\n' !in result.stdout && '\n' !in result.stderr
    ensures PyText.SplitOn(RunOutcome(ArgList(args), result).message, '\n') == RunLines(ArgList(args), result)
  {
    var lines := RunLines(ArgList(args), result);
    HeaderOneLine(args);
    forall i | 0 <= i < |lines|
      ensures '\n' !in lines[i]
    {
      if 1 <= i <= |result.stdout| {
        assert lines[i] == [result.stdout[i - 1]];
      }
    }
    PyText.SplitJoinRoundTrip(lines, '\n');
  }

  /** `output += cmd_out` adds one item per character; put back together they
      are the captured standard output. */
  lemma {:induction false} CharLinesJoin(s: string)
    ensures PyText.JoinWith("", CharLines(s)) == s
    decreases |s|
  {
    if |s| > 1 {
      CharLinesJoin(s[1..]);
      assert CharLines(s)[1..] == CharLines(s[1..]);
      assert [s[0]] + s[1..] == s;
    } else if |s| == 1 {
      assert CharLines(s) == [[s[0]]];
      assert [s[0]] == s;
    }
  }

  /** When the command failed with something on standard error, the joined
      message ends with the error heading and the error text on lines of their
      own, so the heading occurs in the message. */
  lemma ErrorHeadingInMessage(cmd: BuildCommand, result: CommandResult)
    requires result.returnCode != 0 && result.stderr != ""
    ensures var lines := RunLines(cmd, result);
            RunOutcome(cmd, result).message
            == PyText.JoinWith("\n", lines[..|lines| - 2]) + "\n" + ErrorHeading + "\n" + result.stderr
    ensures PyText.ContainsText(RunOutcome(cmd, result).message, ErrorHeading)
  {
    var lines := RunLines(cmd, result);
    ErrorLinesAtEnd(cmd, result);
    PyText.JoinLastTwo("\n", lines[..|lines| - 2], ErrorHeading, result.stderr);
  }

  /** A reported error adds exactly its two lines at the end of the output list. */
  lemma ErrorLinesAtEnd(cmd: BuildCommand, result: CommandResult)
    requires ErrorReported(result)
    ensures var lines := RunLines(cmd, result);
            |lines| >= 3 && lines == lines[..|lines| - 2] + [ErrorHeading, result.stderr]
  {
    var lines := RunLines(cmd, result);
    assert lines[..|lines| - 2] + [ErrorHeading, result.stderr] == lines;
  }

  /** A listing that holds every name of another passes every check on entries
      that the other passes: the setup script and the `.egg-info` checks only
      ask whether some name is present. */
  lemma MoreEntriesKeepChecks(entries1: seq<string>, entries2: seq<string>)
    requires forall e :: e in entries1 ==> e in entries2
    ensures HasSetupScript(entries1) ==> HasSetupScript(entries2)
    ensures HasEggInfoDir(entries1) ==> HasEggInfoDir(entries2)
  {
    if HasEggInfoDir(entries1) {
      var i := EntryFromHasEggInfoDir(entries1);
      var j :| 0 <= j < |entries2| && entries2[j] == entries1[i];
      HasEggInfoDirFromEntry(entries2, j);
    }
  }

  /** `os.listdir` returns entries in no particular order: only which names
      are present affects the outcome. */
  lemma SameEntriesSameOutcome(hook: Hook, skipVar: EnvValue, entries1: seq<string>, entries2: seq<string>,
                               existing: set<string>, forceOnRebase: bool, result: CommandResult)
    requires forall e :: e in entries1 <==> e in entries2
    ensures UpdateEggInfo(hook, Snapshot(skipVar, entries1, existing), forceOnRebase, result)
            == UpdateEggInfo(hook, Snapshot(skipVar, entries2, existing), forceOnRebase, result)
  {
    MoreEntriesKeepChecks(entries1, entries2);
    MoreEntriesKeepChecks(entries2, entries1);
    assert Decide(hook, Snapshot(skipVar, entries1, existing), forceOnRebase)
           == Decide(hook, Snapshot(skipVar, entries2, existing), forceOnRebase);
  }
}

=== FILE: py_repr.dfy ===
/** Python's `repr` of a `str` and of a list of `str`, which is what the
    f-string `{build_command}` renders when the build command is an argument
    list. Quote choice and escapes follow CPython: single quotes unless the text
    holds a single quote and no double quote; the chosen quote and backslash are
    backslash-escaped; tab, newline and carriage return get their letter
    escapes; the other characters below U+0100 that Python does not print
    (control characters, DEL, U+0080 to U+00A0 and the soft hyphen U+00AD)
    become `\xhh` with lower-case hex digits. Characters from U+0100 on are
    rendered verbatim. The partner of the rendering is `ReadBody`, which reads
    a quoted literal back up to its closing quote; `StrRepr` proves the round
    trip. */
module PyRepr {
  import PyText

  const HexDigits: string := "0123456789abcdef"

  /** The quote character CPython picks for `repr(s)`. */
  function Quote(s: string): char
  {
    if '\'' in s && '"' !in s then '"' else '\''
  }

  /** True for the characters rendered as `\xhh`. */
  predicate IsHexEscaped(c: char)
  {
    || (c as int < 0x20 && c != '\t' && c != '\n' && c != '\r')
    || (0x7f <= c as int <= 0xa0)
    || c as int == 0xad
  }

  /** The rendering of one character inside quotes `q`. */
  function EscapeChar(c: char, q: char): string
  {
    if c == q || c == '\\' then ['\\', c]
    else if c == '\t' then "\\t"
    else if c == '\n' then "\\n"
    else if c == '\r' then "\\r"
    else if IsHexEscaped(c) then "\\x" + [HexDigits[c as int / 16], HexDigits[c as int % 16]]
    else [c]
  }

  /** No character renders as a raw newline. */
  lemma EscapeCharOneLine(c: char, q: char)
    requires q == '\'' || q == '"'
    ensures '\n' !in EscapeChar(c, q) && |EscapeChar(c, q)| >= 1
  {
    if IsHexEscaped(c) && c != q && c != '\\' {
      var e := EscapeChar(c, q);
      assert e == ['\\', 'x', HexDigits[c as int / 16], HexDigits[c as int % 16]];
      assert '\n' !in HexDigits;
    }
  }

  /** The rendering of a whole text inside quotes `q`; it never holds a raw newline. */
  function EscapeAll(s: string, q: char): (r: string)
    requires q == '\'' || q == '"'
    ensures '\n' !in r
    ensures |s| <= |r|
    decreases |s|
  {
    if |s| == 0 then ""
    else
      EscapeCharOneLine(s[0], q);
      EscapeChar(s[0], q) + EscapeAll(s[1..], q)
  }

  /** A character that renders as itself inside quotes `q`. */
  predicate IsPlain(c: char, q: char)
  {
    c != q && c != '\\' && 0x20 <= c as int < 0x7f
  }

  /** Text made of plain characters renders verbatim. */
  lemma {:induction false} EscapePlain(s: string, q: char)
    requires q == '\'' || q == '"'
    requires forall i :: 0 <= i < |s| ==> IsPlain(s[i], q)
    ensures EscapeAll(s, q) == s
    decreases |s|
  {
    if |s| > 0 {
      EscapePlain(s[1..], q);
      assert [s[0]] + s[1..] == s;
    }
  }

  /** The value of one lower-case hex digit. */
  function HexValue(d: char): int
  {
    if '0' <= d <= '9' then d as int - '0' as int
    else if 'a' <= d <= 'f' then d as int - 'a' as int + 10
    else 0
  }

  lemma HexDigitValue(n: int)
    requires 0 <= n < 16
    ensures HexValue(HexDigits[n]) == n
  {
  }

  /** What reading a quoted literal yields: the text it denotes and the index
      of its closing quote, or no closing quote at all. */
  datatype Literal = Closed(text: string, end: nat) | Unterminated

  /** A literal whose first `n` characters denote `pre`, followed by `rest`. */
  function Prefixed(pre: string, n: nat, rest: Literal): Literal
  {
    match rest
    case Closed(text, end) => Closed(pre + text, end + n)
    case Unterminated => Unterminated
  }

  /** Reads one character of a literal's body, resolving the escapes `repr`
      writes: the character and how many characters of `t` it took. */
  function ReadOne(t: string): (r: (char, nat))
    requires |t| > 0
    ensures 1 <= r.1 <= |t|
  {
    if t[0] == '\\' && |t| >= 2 then
      if t[1] == 't' then ('\t', 2)
      else if t[1] == 'n' then ('\n', 2)
      else if t[1] == 'r' then ('\r', 2)
      else if t[1] == 'x' && |t| >= 4 then ((16 * HexValue(t[2]) + HexValue(t[3])) as char, 4)
      else (t[1], 2)
    else (t[0], 1)
  }

  /** Reads the body of a literal opened with quote `q`, up to the first quote
      that is not escaped. */
  function ReadBody(t: string, q: char): Literal
    decreases |t|
  {
    if |t| == 0 then Unterminated
    else if t[0] == q then Closed("", 0)
    else
      var (c, n) := ReadOne(t);
      Prefixed([c], n, ReadBody(t[n..], q))
  }

  /** One rendered character is read back as that character. */
  lemma ReadOneChar(c: char, q: char, rest: string)
    requires q == '\'' || q == '"'
    ensures ReadOne(EscapeChar(c, q) + rest) == (c, |EscapeChar(c, q)|)
  {
    var e := EscapeChar(c, q);
    if IsHexEscaped(c) && c != q && c != '\\' && c != '\t' && c != '\n' && c != '\r' {
      var n := c as int;
      var t := e + rest;
      HexDigitValue(n / 16);
      HexDigitValue(n % 16);
      assert t[..4] == ['\\', 'x', HexDigits[n / 16], HexDigits[n % 16]];
      assert (16 * HexValue(t[2]) + HexValue(t[3])) as char == c;
    }
  }

  /** A rendered character never opens with the bare quote, so it does not close
      the literal; it is read as itself and reading carries on after it. */
  lemma ReadChar(c: char, q: char, rest: string)
    requires q == '\'' || q == '"'
    ensures ReadBody(EscapeChar(c, q) + rest, q) == Prefixed([c], |EscapeChar(c, q)|, ReadBody(rest, q))
  {
    var e := EscapeChar(c, q);
    assert e[0] != q;
    ReadOneChar(c, q, rest);
    assert (e + rest)[|e|..] == rest;
  }

  /** Two prefixes read one after the other read as their concatenation. */
  lemma PrefixedTwice(a: string, n: nat, b: string, m: nat, rest: Literal)
    ensures Prefixed(a, n, Prefixed(b, m, rest)) == Prefixed(a + b, n + m, rest)
  {
    match rest
    case Closed(text, end) =>
      assert a + (b + text) == (a + b) + text;
    case Unterminated =>
  }

  /** The rendered body reads back as the original text, whatever follows it,
      without closing early. */
  lemma {:induction false} EscapeRoundTrip(s: string, q: char, rest: string)
    requires q == '\'' || q == '"'
    ensures ReadBody(EscapeAll(s, q) + rest, q) == Prefixed(s, |EscapeAll(s, q)|, ReadBody(rest, q))
    decreases |s|
  {
    if |s| == 0 {
      assert EscapeAll(s, q) + rest == rest;
    } else {
      EscapeRoundTrip(s[1..], q, rest);
      EscapeRoundTripStep(s, q, rest);
    }
  }

  /** The inductive step: the first character's rendering is read, then the rest. */
  lemma EscapeRoundTripStep(s: string, q: char, rest: string)
    requires q == '\'' || q == '"'
    requires |s| > 0
    requires ReadBody(EscapeAll(s[1..], q) + rest, q) == Prefixed(s[1..], |EscapeAll(s[1..], q)|, ReadBody(rest, q))
    ensures ReadBody(EscapeAll(s, q) + rest, q) == Prefixed(s, |EscapeAll(s, q)|, ReadBody(rest, q))
  {
    var head := EscapeChar(s[0], q);
    var tail := EscapeAll(s[1..], q);
    assert EscapeAll(s, q) == head + tail;
    ReadChar(s[0], q, tail + rest);
    ReadAfter(s[0], head, s[1..], tail, rest, q);
    assert [s[0]] + s[1..] == s;
  }

  /** Reading a rendered character and then a rendered body reads their concatenation. */
  lemma ReadAfter(c: char, e: string, u: string, t: string, rest: string, q: char)
    requires ReadBody(e + (t + rest), q) == Prefixed([c], |e|, ReadBody(t + rest, q))
    requires ReadBody(t + rest, q) == Prefixed(u, |t|, ReadBody(rest, q))
    ensures ReadBody((e + t) + rest, q) == Prefixed([c] + u, |e + t|, ReadBody(rest, q))
  {
    ReadRegrouped(e, t, rest, q);
    PrefixedTwice([c], |e|, u, |t|, ReadBody(rest, q));
  }

  /** Reading does not depend on how the text was put together. */
  lemma ReadRegrouped(e: string, t: string, rest: string, q: char)
    ensures ReadBody((e + t) + rest, q) == ReadBody(e + (t + rest), q)
  {
    assert (e + t) + rest == e + (t + rest);
  }

  /** `repr(s)`: on one line, opened with the quote Python picks, and read
      from just after that quote it denotes `s` and closes exactly at its last
      character. */
  function StrRepr(s: string): (r: string)
    ensures |r| >= 2 && r[0] == Quote(s)
    ensures '\n' !in r
    ensures ReadBody(r[1..], r[0]) == Closed(s, |r| - 2)
  {
    var q := Quote(s);
    var body := EscapeAll(s, q);
    EscapeRoundTrip(s, q, [q]);
    assert ReadBody([q], q) == Closed("", 0);
    assert s + "" == s;
    var r := [q] + (body + [q]);
    AfterOpening(q, body + [q]);
    r
  }

  /** Dropping the opening quote leaves what followed it. */
  lemma AfterOpening(q: char, t: string)
    ensures ([q] + t)[1..] == t
  {
  }

  /** `repr` of each argument, in order. */
  function ArgReprs(args: seq<string>): (r: seq<string>)
    ensures |r| == |args|
    ensures forall i :: 0 <= i < |r| ==> '\n' !in r[i]
  {
    seq(|args|, i requires 0 <= i < |args| => StrRepr(args[i]))
  }

  /** `repr(args)` for a list of `str`: `[`, the items' reprs joined with `, `, `]`.
      Like every item, the whole rendering stays on one line. */
  function ListRepr(args: seq<string>): (r: string)
    ensures '\n' !in r
    ensures |r| >= 2 && r[0] == '[' && r[|r| - 1] == ']'
  {
    PyText.JoinAvoids(", ", ArgReprs(args), '\n');
    "[" + PyText.JoinWith(", ", ArgReprs(args)) + "]"
  }

  /** Printable ASCII arguments without a single quote or backslash render as
      the familiar `['a', 'b']`. */
  lemma PlainListRepr(args: seq<string>)
    requires forall i, j :: 0 <= i < |args| && 0 <= j < |args[i]| ==> IsPlain(args[i][j], '\'')
    ensures ListRepr(args) == "[" + PyText.JoinWith(", ", seq(|args|, i requires 0 <= i < |args| => "'" + args[i] + "'")) + "]"
  {
    forall i | 0 <= i < |args|
      ensures StrRepr(args[i]) == "'" + args[i] + "'"
    {
      assert Quote(args[i]) == '\'';
      EscapePlain(args[i], '\'');
    }
    assert ArgReprs(args) == seq(|args|, i requires 0 <= i < |args| => "'" + args[i] + "'");
  }
}

=== FILE: py_text.dfy ===
/** Python string built-ins the egg-info hook relies on: `str.rfind` for one
    character, `sep.join(parts)` and `s.split(c)` for a one-character
    separator. `JoinWith` and `SplitOn` are each other's partner: the two round
    trips are proved below. */
module PyText {

  /** `s.rfind(c)`: the index of the last occurrence of `c`, or -1. */
  function RFind(s: string, c: char): (r: int)
    ensures -1 <= r < |s|
    ensures r == -1 <==> c !in s
    ensures 0 <= r ==> s[r] == c
    ensures forall j :: r < j < |s| ==> s[j] != c
    decreases |s|
  {
    if |s| == 0 then -1
    else if s[|s| - 1] == c then |s| - 1
    else
      assert s == s[..|s| - 1] + [s[|s| - 1]];
      RFind(s[..|s| - 1], c)
  }

  /** The last occurrence is the only index holding `c` with none after it. */
  lemma RFindIsLast(s: string, c: char, k: int)
    requires 0 <= k < |s| && s[k] == c
    requires forall j :: k < j < |s| ==> s[j] != c
    ensures RFind(s, c) == k
  {
  }

  /** Appending text that does not hold `c` leaves the last occurrence where it was. */
  lemma RFindAppendWithout(s: string, t: string, c: char)
    requires c !in t
    ensures RFind(s + t, c) == RFind(s, c)
  {
    var k := RFind(s, c);
    if k == -1 {
      assert c !in s + t;
    } else {
      forall j | k < j < |s + t|
        ensures (s + t)[j] != c
      {
        if j >= |s| {
          assert (s + t)[j] == t[j - |s|];
        }
      }
      RFindIsLast(s + t, c, k);
    }
  }

  /** `filter(keep, xs)`: the items of `xs` that `keep` accepts. `FilterCounts`
      adds that each is kept as often as it occurs, `FilterAppend` that they
      stay in order. */
  function Filter<T>(xs: seq<T>, keep: T -> bool): (r: seq<T>)
    ensures forall i :: 0 <= i < |r| ==> r[i] in xs && keep(r[i])
    ensures forall i :: 0 <= i < |xs| && keep(xs[i]) ==> xs[i] in r
    ensures |r| <= |xs|
  {
    if |xs| == 0 then []
    else
      var tail := Filter(xs[1..], keep);
      assert forall i :: 1 <= i < |xs| ==> xs[i] == xs[1..][i - 1];
      (if keep(xs[0]) then [xs[0]] else []) + tail
  }

  /** Every accepted value occurs in the result exactly as often as in `xs`;
      a rejected value does not occur at all. */
  lemma {:induction false} FilterCounts<T>(xs: seq<T>, keep: T -> bool, x: T)
    ensures multiset(Filter(xs, keep))[x] == if keep(x) then multiset(xs)[x] else 0
    decreases |xs|
  {
    if |xs| > 0 {
      FilterCounts(xs[1..], keep, x);
      var head := if keep(xs[0]) then [xs[0]] else [];
      assert Filter(xs, keep) == head + Filter(xs[1..], keep);
      assert multiset(Filter(xs, keep)) == multiset(head) + multiset(Filter(xs[1..], keep));
      assert xs == [xs[0]] + xs[1..];
      assert multiset(xs) == multiset([xs[0]]) + multiset(xs[1..]);
    }
  }

  /** Filtering distributes over concatenation, so the kept items keep their order. */
  lemma {:induction false} FilterAppend<T>(a: seq<T>, b: seq<T>, keep: T -> bool)
    ensures Filter(a + b, keep) == Filter(a, keep) + Filter(b, keep)
    decreases |a|
  {
    if |a| > 0 {
      assert (a + b)[1..] == a[1..] + b;
      FilterAppend(a[1..], b, keep);
    } else {
      assert a + b == b;
    }
  }

  /** `sep.join(parts)`: the first part opens the joined text. */
  function JoinWith(sep: string, parts: seq<string>): (r: string)
    ensures |parts| > 0 ==> parts[0] <= r
    ensures |parts| == 0 ==> r == ""
  {
    if |parts| == 0 then ""
    else if |parts| == 1 then parts[0]
    else parts[0] + sep + JoinWith(sep, parts[1..])
  }

  /** Joining two non-empty lists puts one separator between their joins. */
  lemma {:induction false} JoinAppend(sep: string, a: seq<string>, b: seq<string>)
    requires |a| > 0 && |b| > 0
    ensures JoinWith(sep, a + b) == JoinWith(sep, a) + sep + JoinWith(sep, b)
    decreases |a|
  {
    if |a| == 1 {
      assert (a + b)[1..] == b;
    } else {
      assert (a + b)[1..] == a[1..] + b;
      JoinAppend(sep, a[1..], b);
    }
  }

  /** Python's `sub in s` for strings: `sub` occurs in `s` at some position. */
  predicate ContainsText(s: string, sub: string)
  {
    exists i :: 0 <= i <= |s| - |sub| && OccursAt(s, sub, i)
  }

  /** `sub` occurs in `s` starting at index `i`. */
  predicate OccursAt(s: string, sub: string, i: int)
  {
    0 <= i <= |s| - |sub| && s[i..i + |sub|] == sub
  }

  /** Text placed between two others occurs in the whole. */
  lemma ContainsMiddle(pre: string, sub: string, post: string)
    ensures ContainsText(pre + sub + post, sub)
  {
    assert OccursAt(pre + sub + post, sub, |pre|) by {
      assert (pre + sub + post)[|pre|..|pre| + |sub|] == sub;
    }
  }

  /** Joining a list that ends in two given parts ends with those two parts,
      each after a separator. */
  lemma JoinLastTwo(sep: string, front: seq<string>, x: string, y: string)
    requires |front| > 0
    ensures JoinWith(sep, front + [x, y]) == JoinWith(sep, front) + sep + x + sep + y
    ensures ContainsText(JoinWith(sep, front + [x, y]), x)
  {
    JoinAppend(sep, front, [x, y]);
    assert [x, y][1..] == [y];
    var pre := JoinWith(sep, front) + sep;
    assert JoinWith(sep, front + [x, y]) == pre + x + (sep + y);
    ContainsMiddle(pre, x, sep + y);
  }

  /** A character found neither in the separator nor in any part is not in the joined text. */
  lemma {:induction false} JoinAvoids(sep: string, parts: seq<string>, c: char)
    requires c !in sep
    requires forall i :: 0 <= i < |parts| ==> c !in parts[i]
    ensures c !in JoinWith(sep, parts)
    decreases |parts|
  {
    if |parts| > 1 {
      JoinAvoids(sep, parts[1..], c);
    }
  }

  /** `s.split(c)`: the maximal pieces of `s` between occurrences of `c`.
      Joining the pieces back with `c` gives `s` again. */
  function SplitOn(s: string, c: char): (r: seq<string>)
    ensures |r| >= 1
    ensures forall i :: 0 <= i < |r| ==> c !in r[i]
    ensures JoinWith([c], r) == s
    decreases |s|
  {
    if |s| == 0 then [""]
    else if s[0] == c then
      [""] + SplitOn(s[1..], c)
    else
      var rest := SplitOn(s[1..], c);
      JoinExtendFirst(s[0], rest, [c]);
      assert [s[0]] + s[1..] == s;
      [[s[0]] + rest[0]] + rest[1..]
  }

  /** Putting a character in front of the first part puts it in front of the join. */
  lemma JoinExtendFirst(x: char, parts: seq<string>, sep: string)
    requires |parts| > 0
    ensures JoinWith(sep, [[x] + parts[0]] + parts[1..]) == [x] + JoinWith(sep, parts)
  {
    var r := [[x] + parts[0]] + parts[1..];
    if |parts| > 1 {
      assert r[1..] == parts[1..];
    }
  }

  /** Text without the separator is a single piece. */
  lemma SplitWithout(s: string, c: char)
    requires c !in s
    ensures SplitOn(s, c) == [s]
  {
  }

  /** Splitting `a + [c] + t`, where `a` holds no `c`, yields `a` followed by the pieces of `t`. */
  lemma {:induction false} SplitAfterPiece(a: string, c: char, t: string)
    requires c !in a
    ensures SplitOn(a + [c] + t, c) == [a] + SplitOn(t, c)
    decreases |a|
  {
    if |a| == 0 {
      assert a + [c] + t == [c] + t;
      assert ([c] + t)[1..] == t;
    } else {
      assert (a + [c] + t)[1..] == a[1..] + [c] + t;
      SplitAfterPiece(a[1..], c, t);
      assert [a[0]] + a[1..] == a;
    }
  }

  /** The other round trip: splitting a join of separator-free pieces returns the pieces. */
  lemma {:induction false} SplitJoinRoundTrip(parts: seq<string>, c: char)
    requires |parts| > 0
    requires forall i :: 0 <= i < |parts| ==> c !in parts[i]
    ensures SplitOn(JoinWith([c], parts), c) == parts
    decreases |parts|
  {
    if |parts| == 1 {
      SplitWithout(parts[0], c);
    } else {
      SplitJoinRoundTrip(parts[1..], c);
      SplitAfterPiece(parts[0], c, JoinWith([c], parts[1..]));
      assert [parts[0]] + parts[1..] == parts;
    }
  }

  /** The first piece of a split is the text before the first separator. */
  lemma FirstPiece(a: string, c: char, t: string)
    requires c !in a
    ensures SplitOn(a, c)[0] == a
    ensures SplitOn(a + [c] + t, c)[0] == a
  {
    SplitWithout(a, c);
    SplitAfterPiece(a, c, t);
  }
}
